=== FILE: README.md ===
# YouTube test runner: a Dafny model

This project models `YouTubeTestRunner.run` from Mi-Go's
`testrunners/youtube_runner.py` and proves properties of it. The runner
evaluates a speech-transcription model against YouTube's reference
transcripts. It works through a test plan, a JSON document with search
`args`, a list of video records under `items`, and a `nextPageToken`:

1. It runs two fail-fast checks. The tester must have a transcriber. A run
   with more than one iteration needs `GoogleAPI` in the environment.
2. It loads the plan.
3. For each of `iterations` iterations, it runs every item through a
   pipeline of five calls:
   - `YouTubeVideo.from_dict`;
   - `download_mp3` (a `ValueError` is caught);
   - the tester's `transcribe` (a `TimeoutError` is caught);
   - `youtube_transcript` (a `ValueError` is caught);
   - the tester's `compare`.
4. It writes either an `error` text or the `results` onto the item's record
   in place, plus the two transcripts when they are retained.
5. After the items, it calls `testplan_postprocess` on the plan and saves it.
6. Unless this was the last iteration, it asks the plan generator for the
   next page. That request carries the plan's `args` with `pageToken` set to
   the plan's `nextPageToken`.

## How the model is built

Every call into code outside the runner is an oracle, a total function
field of `Collaborators.Env` that either returns a value or raises an
exception (`Fallible.Outcome`). This covers:
- the plan file;
- `from_dict`, `download_mp3` and `youtube_transcript`;
- the tester's `transcribe`, `compare` and `testplan_postprocess`;
- `save_results`;
- `generate`.

The tester's `language` attribute is not an oracle but a plain string of
`Env`, passed to every `youtube_transcript` call.

Every item-level oracle, `compare` included, also receives the item's `Site`
(iteration and position). So one video may succeed in one iteration and fail
in the next, and a tester may score two items with equal transcripts
differently.

Each operation returns a `Traced` value. It holds the sequence of calls the
runner made, as `Event`s with their arguments, and how the operation ended.
So "nothing else changes" and "called once, in this order, with these
arguments" are statements about the trace. `Trace.Marks` projects out the
items started, the postprocess and save calls, and the generator calls.

Modules:
- `Fallible`: options, exception classes, outcomes.
- `Testplan`: JSON values, records, the plan, `video_details`.
- `Annotations`: the stages, the exact error prefixes, writing a verdict onto
  a record, and reading a saved record back.
- `Collaborators`: oracles and call events.
- `Trace`: projections of traces and the lemmas about them.
- `YoutubeRunner`: the runner itself.
- `RunnerProperties`: properties that relate several calls.

The inner loop is written once, over an arbitrary per-item `step` that
only has to keep its calls to its own item. `ItemStep` instantiates it with
`ProcessVideo`. The outer loop is three mutually recursive functions:
- `Iterate` runs one iteration;
- `Continue` decides what follows it;
- `Advance` asks `generate` for the next page and goes on with the plan it
  returns.

`VideoDetails` (the `video_details` generator) and `Catch` (one `except`
clause) are helpers. Their behaviour is stated by the contracts of
`RunIteration` and `RunPipeline`.

## Behaviour worth noting

- **Missing `nextPageToken`.** With iterations remaining, line 113 reads
  `testplan["nextPageToken"]` after the iteration's save. On a plan without
  that key, the read raises `KeyError` and ends the run. A token that is
  present and JSON `null` is passed on unchanged.
- **Save.** `save_results` writes whatever plan postprocessing left. It is
  an oracle that may raise, for example on the exclusive create of a file
  that already exists.
- **Credential error.** The missing-credential failure is a `ValueError`
  with the message of lines 49-50.
- **Iteration count.** `iterations` is any integer, as `range` accepts. Zero
  or fewer iterations load the plan and do nothing else.
- **Uncaught calls.** `from_dict` and `compare` run outside any `try`, and
  each stage catches only its own class. Any other exception ends the whole
  run with no save of the current iteration.

## Model

| member | source | states |
|---|---|---|
| Annotations.Annotate | testrunners/youtube_runner.py:75-105 | writing a verdict sets only the four output keys and removes none: the keys the verdict writes (`error` for a failure; `results`, plus the transcripts when retained, for a score) are set, every other key, an output key the record already carried included, keeps its value, and no other key is added |
| Annotations.ParseErrorInverts | testrunners/youtube_runner.py:75-95 | the three error prefixes are unambiguous: the stage and the exception message can be recovered from any error text the runner writes |
| Annotations.ReadbackAnnotate | testrunners/youtube_runner.py:67-105 | on a record without output keys, the written record reads back as the verdict: one of `error` or `results`, and transcripts exactly for a scored item with retention on |
| Annotations.StaleResultsSurviveFailure | testrunners/youtube_runner.py:75-100 | keys are never cleared: a record that already had `results` and then fails at any stage, with or without retention, keeps the stale results next to the new `error`, and reads back as inconsistent |
| YoutubeRunner.RunPipeline | testrunners/youtube_runner.py:67-99 | the five calls happen in pipeline order, each at most once, each fed the previous call's result; the item stops only at a raising call or after compare; a caught failure names the raising stage and class; anything else escapes from the last call with a class that stage does not catch |
| YoutubeRunner.ProcessVideo | testrunners/youtube_runner.py:67-105 | the item's calls come in pipeline order and start with `from_dict`; the audio is downloaded into the runner's audio directory; an escaping exception was raised by the last call, outside its stage's caught class |
| YoutubeRunner.ProcessItems | testrunners/youtube_runner.py:62-105 | every item is started in plan order, none skipped and none twice, with every call belonging to one item of this iteration; a completed loop covers all items and returns as many records |
| YoutubeRunner.ItemsCallInOrder | testrunners/youtube_runner.py:62-105 | the loop's calls are exactly the calls of each started item's own step, whole and in plan order, so each item's pipeline calls reach the iteration's trace unchanged |
| YoutubeRunner.ItemsProcessedIndependently | testrunners/youtube_runner.py:62-105 | failure isolation: each record of a completed loop is exactly what that item's step gives on its own |
| YoutubeRunner.AbortComesFromLastItem | testrunners/youtube_runner.py:62-99 | an exception that escapes the loop is the one the last started item raised |
| YoutubeRunner.ItemsBeforeAbortCompleted | testrunners/youtube_runner.py:62-99 | every item started before an aborting item completed |
| YoutubeRunner.ItemsAbortFromLastCall | testrunners/youtube_runner.py:62-99 | when each item's exceptions come from its own last call, as `ItemStep` guarantees, an exception that escapes the loop is the one its last call raised |
| YoutubeRunner.FinishIteration | testrunners/youtube_runner.py:107-108 | postprocess is called once on the annotated plan, then save once on the plan postprocessing left, and save only if postprocess returned |
| YoutubeRunner.RunIteration | testrunners/youtube_runner.py:57-108 | a missing `args` or `items` raises `KeyError` before any item is touched; save happens at most once, as the final call; a completed iteration postprocesses the plan with unchanged `args`, token and other keys and then saves the result; an item's exception is the inner loop's, with no postprocess or save after it; once every item is processed, the calls are the inner loop's followed by postprocess and save on the plan holding the records, and the iteration ends as they do, so an exception of postprocess or save comes after all the item calls |
| YoutubeRunner.NextArgs | testrunners/youtube_runner.py:111-114 | the next request's arguments are the plan's `args` plus `pageToken` set to the plan's token (null included), all other arguments unchanged; a missing `args` or `nextPageToken` raises `KeyError` |
| YoutubeRunner.IterationEnded | testrunners/youtube_runner.py:57-108 | how an iteration ends: a save only as the last call, and a returning iteration saved as it ended; an exception without any call is a `KeyError` for `args` or `items`; with `ProcessVideo` as the step, every other exception was raised by the last call |
| YoutubeRunner.Iterate | testrunners/youtube_runner.py:57-114 | from iteration `i` on: iteration `i` runs on the given plan and its calls come first; one save per iteration in order; one generator call between consecutive iterations and none after the last, each right after the save of its iteration with that plan's next-page arguments; the loop completes exactly when all `max(iterations - i, 0)` saves happened and the last call returned; an escaping exception was raised by the last call or is a `KeyError` for `args`, `items` or `nextPageToken` |
| YoutubeRunner.Continue | testrunners/youtube_runner.py:110-114 | after iteration `i`, the iteration's calls come first and unchanged; an exception of the iteration ends the loop with nothing called after it; after the last iteration's save nothing more is called and the loop completes; a saved plan that cannot give the next page's arguments ends it with exactly that `KeyError`, for `args` before `nextPageToken`; the same promises as `Iterate` hold for the whole |
| YoutubeRunner.Advance | testrunners/youtube_runner.py:111-114 | the call right after the save is `generate` with the next-page arguments; when it returns a plan, the later iterations run on exactly that plan; when it raises, its own exception ends the run with nothing called after it |
| YoutubeRunner.Run | testrunners/youtube_runner.py:39-114 | no transcriber raises `ValueError("Transcriber is None")` before any call; more than one iteration without the credential raises the credential `ValueError` before loading; otherwise the plan is loaded first and once, a failed load ends the run there, saves number `max(iterations, 0)` and generator calls `max(iterations - 1, 0)` on completion, and every generator call follows its iteration's save; the run completes exactly when every iteration was saved and the last call returned; an exception was raised by the last call or is a `KeyError` for a plan key |
| RunnerProperties.ProcessVideoKeepsFields | testrunners/youtube_runner.py:67-105 | processing an item keeps every field other than the four output keys, and adds none; it removes no key, and an output key the record already carried keeps its value unless the verdict writes that key |
| RunnerProperties.ProcessVideoRecordsOutcome | testrunners/youtube_runner.py:67-105 | on a record without output keys: an `error` names the stage whose call raised, with that exception's class and message; `results` is what `compare` returned, with the transcripts stored exactly when retention is on |
| RunnerProperties.ProcessVideoExclusive | testrunners/youtube_runner.py:67-105 | on a record without output keys, a processed item has exactly one of `error` and `results`, and each transcript exactly when it has results and retention is on |
| RunnerProperties.IterationHandsOnItems | testrunners/youtube_runner.py:62-107 | a completed iteration makes, before postprocessing, exactly the calls of each item's own step in plan order, and hands postprocessing the given plan with its items replaced by the inner loop's records |
| RunnerProperties.ItemAnnotated | testrunners/youtube_runner.py:67-105 | the per-item step keeps the record's other fields and leaves exactly one of `error` and `results` |
| RunnerProperties.ItemsAnnotated | testrunners/youtube_runner.py:62-105 | each record of a completed loop is that item's step result, and is annotated |
| RunnerProperties.IterationAnnotatesItems | testrunners/youtube_runner.py:62-107 | in a completed iteration, each item postprocessing receives is what the step gave for that item, and is annotated |
| RunnerProperties.EveryItemAnnotated | testrunners/youtube_runner.py:62-107 | in a completed iteration over records without output keys, each item postprocessing receives is that item's `ProcessVideo` record, with other fields kept and exactly one of `error` and `results` |
| RunnerProperties.IterationAbortNamesItem | testrunners/youtube_runner.py:62-108 | an iteration aborted by an item: the exception is the last reached item's, all earlier items completed, and no postprocess or save was called |
| RunnerProperties.NormalizerIsAdvisory | testrunners/youtube_runner.py:43-44 | a missing normalizer changes nothing in the run |
| RunnerProperties.SingleIterationNeedsNoCredential | testrunners/youtube_runner.py:47-51 | with at most one iteration the run is the same with or without the credential, and the generator is never called |
| RunnerProperties.AbortEndsRun | testrunners/youtube_runner.py:57-114 | an exception that escapes an iteration ends the run with nothing called after it; if it came before the save, that iteration is never saved |
| RunnerProperties.MissingPageTokenAbortsAfterSave | testrunners/youtube_runner.py:107-114 | with iterations remaining, a saved plan without `nextPageToken` ends the run with `KeyError('nextPageToken')` after its save succeeded |
| RunnerProperties.MissingArgsAbortsAfterSave | testrunners/youtube_runner.py:107-112 | with iterations remaining, a saved plan without `args` ends the run with `KeyError('args')` right after its save |
| RunnerProperties.GenerateFailureEndsRun | testrunners/youtube_runner.py:111-114 | with iterations remaining, an exception `generate` raises ends the run with that same exception, right after the `generate` call |
| RunnerProperties.LastIterationCompletes | testrunners/youtube_runner.py:57-108 | once the last iteration is saved nothing more is called, and the loop completes |
| RunnerProperties.PageTokenHandedOn | testrunners/youtube_runner.py:108-114 | with iterations remaining, the call right after the save is the generator call with the saved plan's `args` and its token (null included) as `pageToken` |
| RunnerProperties.NextIterationOnGeneratedPlan | testrunners/youtube_runner.py:110-114 | after a saved iteration that is not the last, the run is that iteration's calls, the `generate` call with its next-page arguments, then the later iterations run on the plan `generate` returned |
| RunnerProperties.FirstIterationOnLoadedPlan | testrunners/youtube_runner.py:53-108 | after the load, the run's calls start with those of iteration 0 on the loaded plan, with `ProcessVideo` under the run's configuration as the item step; if that iteration raises, the run ends there with its exception |
| RunnerProperties.RunIsLoop | testrunners/youtube_runner.py:53-114 | after a successful load the run is the load followed by the outer loop from iteration 0 on the loaded plan, with `ProcessVideo` under the run's configuration as the item step, so every statement about `Iterate` holds of the run |
| RunnerProperties.StaleAnnotationSurvives | testrunners/youtube_runner.py:75-105 | keys are never cleared by processing: a stale `error` stays beside fresh `results`, stale `results` stay with their value beside a fresh `error`, and either record reads back as inconsistent |
| RunnerProperties.NextPageOfSearch | testrunners/youtube_runner.py:111-114 | a plan with `args` `{"q": "test"}` and token `"token"` asks for `{"q": "test", "pageToken": "token"}` |

## Left out

- File and JSON I/O. Loading the plan file is the `load` oracle, which also
  covers a file that cannot be read or parsed.
- The internals of `save_results`: the timestamped file name, the output
  directory and the JSON encoding. Save is an oracle that may raise.
- Logging and progress messages. The only logging line with an effect is
  line 59, which reads `testplan['args']` and so raises `KeyError` on a plan
  without `args`; that read is modelled.
- Argument parsing, test registration and the constructor. Their result is
  `Config`. The tester's transcriber, its normalizer and the `GoogleAPI`
  environment lookup become the booleans of `Capabilities`.
- The internals of the collaborators: `YouTubeVideo`, the tester and the
  plan generator. They are oracles.
- In-place mutation and aliasing. The runner mutates the records, and
  postprocessing mutates the plan. The model returns new values instead:
  postprocess returns the plan it leaves. Writing `pageToken` into the
  saved plan's `args` dictionary after it was saved changes nothing that
  was written, and is not modelled.
- JSON of the wrong type: a plan that is not an object (a JSON list, say,
  on which line 59 raises `TypeError` right after the load when there is an
  iteration), `args` that is not an object, `items` that is not a list, or
  an item that is not an object. Python would raise `TypeError`; the
  model's types rule these out.
- Floating-point JSON numbers. Only integers are represented, because the
  runner never inspects numbers.
- YoutubeRunner.Catch: an exception is caught only when its class is exactly
  the stage's class. Python's `except` also catches subclasses, which are
  not modelled. The exception's `str()` is its `message`.
- The tester's `language` (line 90): an attribute read, taken as one string
  of `Env` that cannot raise and is the same for every item. A property
  that raises or varies between items is not modelled.
- Exceptions outside the `Exception` hierarchy, such as
  `KeyboardInterrupt`. Like every uncaught class, they would propagate.

=== FILE: annotations.dfy ===
/** The keys the runner writes onto a video record, and how a reader of the
    saved artifact reads them back. */
module Annotations {
  import opened Fallible
  import opened Testplan

  /** The three stages of an item whose failure is caught. */
  datatype Stage = AudioDownload | ModelTranscript | TargetTranscript

  /** The exception class the `except` clause of a stage catches. */
  function CaughtClass(s: Stage): ExceptionClass {
    match s
    case AudioDownload => ValueError
    case ModelTranscript => TimeoutError
    case TargetTranscript => ValueError
  }

  /** The text that starts the `error` field written for a caught failure. */
  function Prefix(s: Stage): string {
    match s
    case AudioDownload => "ValueError (download): "
    case ModelTranscript => "TimeoutError (model transcript): "
    case TargetTranscript => "ValueError (youtube transcript): "
  }

  /** How an item's pipeline ended without raising: a caught failure at one
      stage, or both transcripts obtained and compared. */
  datatype Verdict =
    | Failed(stage: Stage, message: string)
    | Scored(model: string, target: string, results: Value)

  /** The only keys the runner ever writes on a record. */
  predicate IsOutputKey(k: string) {
    k == "error" || k == "results" || k == "modelTranscript" || k == "targetTranscript"
  }

  /** A record that carries none of the output keys, as the plan generator
      produces it. */
  predicate Unannotated(r: Record) {
    "error" !in r && "results" !in r && "modelTranscript" !in r && "targetTranscript" !in r
  }

  /** Whether writing verdict `v` sets key `k`: `error` for a failure;
      `results`, and the transcripts when they are retained, for a score. */
  predicate Writes(v: Verdict, saveTranscripts: bool, k: string) {
    match v
    case Failed(_, _) => k == "error"
    case Scored(_, _, _) =>
      k == "results" || (saveTranscripts && (k == "modelTranscript" || k == "targetTranscript"))
  }

  /** Writes the verdict onto the record: the `error` text for a caught
      failure; `results`, plus both transcripts when they are retained, for a
      scored item. Keys are only set, never removed. */
  function Annotate(details: Record, v: Verdict, saveTranscripts: bool): (r: Record)
    ensures forall k | k in details && !IsOutputKey(k) :: k in r && r[k] == details[k]
    ensures forall k | k in r && !IsOutputKey(k) :: k in details
    // no key is removed, not even an output key the record already carried
    ensures details.Keys <= r.Keys
    // the verdict's keys are set; every other key keeps its value, and none is added
    ensures forall k | Writes(v, saveTranscripts, k) :: k in r
    ensures forall k | k in details && !Writes(v, saveTranscripts, k) :: r[k] == details[k]
    ensures forall k | k in r && !Writes(v, saveTranscripts, k) :: k in details
  {
    match v
    case Failed(s, m) => details["error" := Str(Prefix(s) + m)]
    case Scored(model, target, res) =>
      var scored := details["results" := res];
      if saveTranscripts then scored["modelTranscript" := Str(model)]["targetTranscript" := Str(target)]
      else scored
  }

  /** What a reader of the artifact finds on one item. */
  datatype Annotation =
    | Unprocessed
    | ErrorNote(stage: Stage, message: string)
    | ResultNote(results: Value, transcripts: Option<(string, string)>)
    | Inconsistent

  /** Splits an `error` text into its stage and the exception's message. */
  function ParseError(text: string): Option<(Stage, string)> {
    if Prefix(AudioDownload) <= text then Some((AudioDownload, text[|Prefix(AudioDownload)|..]))
    else if Prefix(ModelTranscript) <= text then Some((ModelTranscript, text[|Prefix(ModelTranscript)|..]))
    else if Prefix(TargetTranscript) <= text then Some((TargetTranscript, text[|Prefix(TargetTranscript)|..]))
    else None
  }

  /** Reads an item back: exactly one of `error` or `results`, an error
      never with transcripts, and the two transcripts together or not at
      all; anything else is `Inconsistent`. */
  function Readback(r: Record): Annotation {
    var hasError := "error" in r;
    var hasResults := "results" in r;
    var hasModel := "modelTranscript" in r;
    var hasTarget := "targetTranscript" in r;
    if !hasError && !hasResults && !hasModel && !hasTarget then Unprocessed
    else if hasError && !hasResults && !hasModel && !hasTarget then
      match r["error"]
      case Str(text) =>
        (match ParseError(text)
         case Some((s, m)) => ErrorNote(s, m)
         case None => Inconsistent)
      case _ => Inconsistent
    else if hasResults && !hasError && !hasModel && !hasTarget then ResultNote(r["results"], None)
    else if hasResults && !hasError && hasModel && hasTarget then
      match (r["modelTranscript"], r["targetTranscript"])
      case (Str(m), Str(t)) => ResultNote(r["results"], Some((m, t)))
      case _ => Inconsistent
    else Inconsistent
  }

  /** What a reader should find for a verdict. */
  function Expected(v: Verdict, saveTranscripts: bool): Annotation {
    match v
    case Failed(s, m) => ErrorNote(s, m)
    case Scored(model, target, res) =>
      ResultNote(res, if saveTranscripts then Some((model, target)) else None)
  }

  /** No stage prefix is a prefix of another stage's error text, so the
      stage and message can be recovered from the text. */
  lemma ParseErrorInverts(s: Stage, m: string)
    ensures ParseError(Prefix(s) + m) == Some((s, m))
  {
    var text := Prefix(s) + m;
    assert text[|Prefix(s)|..] == m;
    match s
    case AudioDownload =>
    case ModelTranscript =>
      assert text[0] != Prefix(AudioDownload)[0];
    case TargetTranscript =>
      assert text[12] != Prefix(AudioDownload)[12];
      assert text[0] != Prefix(ModelTranscript)[0];
  }

  /** Round trip: on a record that carried no annotation, reading back what
      the runner wrote gives the verdict, so every processed item has
      exactly one of `error` or `results`, and the transcripts exactly when
      it was scored and retention is on. */
  lemma ReadbackAnnotate(details: Record, v: Verdict, saveTranscripts: bool)
    requires Unannotated(details)
    ensures Readback(Annotate(details, v, saveTranscripts)) == Expected(v, saveTranscripts)
  {
    match v
    case Failed(s, m) => ParseErrorInverts(s, m);
    case Scored(_, _, _) =>
  }

  /** The runner never clears a key: a record that already carried
      `results` keeps it next to a fresh `error`, and reads back as
      inconsistent. */
  lemma StaleResultsSurviveFailure(details: Record, s: Stage, m: string, saveTranscripts: bool)
    requires "results" in details
    ensures "error" in Annotate(details, Failed(s, m), saveTranscripts)
    ensures Annotate(details, Failed(s, m), saveTranscripts)["results"] == details["results"]
    ensures Readback(Annotate(details, Failed(s, m), saveTranscripts)) == Inconsistent
  {
  }
}

=== FILE: collaborators.dfy ===
/** The code the runner calls but does not contain, as oracles, and the
    trace of the calls the runner makes to them. */
module Collaborators {
  import opened Fallible
  import opened Testplan
  import opened Annotations

  /** An opaque handle for a `YouTubeVideo` object. */
  type Video = nat

  /** A file-system path, such as the downloaded mp3 file. */
  type Path = string

  /** Which item of which iteration a call is made for. Every item-level
      oracle receives it, so the same video may download in one iteration
      and fail in another, and a tester may score two items with equal
      transcripts differently. */
  datatype Site = Site(iteration: nat, index: nat)

  /** One call the runner makes to a collaborator, with its arguments. */
  datatype Event =
    | LoadPlan
    | FromDict(site: Site, details: Record)
    | DownloadMp3(site: Site, video: Video, audioDir: Path)
    | Transcribe(site: Site, audio: Path)
    | YoutubeTranscript(site: Site, video: Video, language: string)
    | Compare(site: Site, model: string, target: string)
    | Postprocess(iteration: nat, plan: Plan)
    | SaveResults(iteration: nat, plan: Plan)
    | Generate(iteration: nat, args: Record)
  {
    /** A call made while processing one item. */
    predicate IsItemCall() {
      FromDict? || DownloadMp3? || Transcribe? || YoutubeTranscript? || Compare?
    }

    /** The position of an item call in the per-item pipeline. */
    function Rank(): nat {
      match this
      case FromDict(_, _) => 0
      case DownloadMp3(_, _, _) => 1
      case Transcribe(_, _) => 2
      case YoutubeTranscript(_, _, _) => 3
      case Compare(_, _, _) => 4
      case _ => 5
    }

    /** The stage whose `except` clause guards this call, if any. */
    function GuardedStage(): Option<Stage> {
      match this
      case DownloadMp3(_, _, _) => Some(AudioDownload)
      case Transcribe(_, _) => Some(ModelTranscript)
      case YoutubeTranscript(_, _, _) => Some(TargetTranscript)
      case _ => None
    }
  }

  /** The collaborators: loading the plan file, `YouTubeVideo.from_dict`,
      `download_mp3`, the tester's `transcribe`, `compare` and
      `testplan_postprocess`, `youtube_transcript`, `save_results`, and the
      plan generator, each answering deterministically in its arguments;
      and the tester's `language` attribute, one string for the whole run. */
  datatype Env = Env(
    load: Outcome<Plan>,
    fromDict: (Site, Record) -> Outcome<Video>,
    downloadMp3: (Site, Video, Path) -> Outcome<Path>,
    transcribe: (Site, Path) -> Outcome<string>,
    language: string,
    youtubeTranscript: (Site, Video, string) -> Outcome<string>,
    compare: (Site, string, string) -> Outcome<Value>,
    postprocess: (nat, Plan) -> Outcome<Plan>,
    save: (nat, Plan) -> Outcome<()>,
    generate: (nat, Record) -> Outcome<Plan>)
  {
    /** The exception the recorded call raised, if it raised. */
    function Raised(e: Event): Option<Exception> {
      match e
      case LoadPlan => ExceptionOf(load)
      case FromDict(site, details) => ExceptionOf(fromDict(site, details))
      case DownloadMp3(site, video, dir) => ExceptionOf(downloadMp3(site, video, dir))
      case Transcribe(site, audio) => ExceptionOf(transcribe(site, audio))
      case YoutubeTranscript(site, video, lang) => ExceptionOf(youtubeTranscript(site, video, lang))
      case Compare(site, model, target) => ExceptionOf(compare(site, model, target))
      case Postprocess(i, plan) => ExceptionOf(postprocess(i, plan))
      case SaveResults(i, plan) => ExceptionOf(save(i, plan))
      case Generate(i, args) => ExceptionOf(generate(i, args))
    }
  }

  /** A computation's calls, in order, and how it ended. */
  datatype Traced<+T> = Traced(trace: seq<Event>, exit: Outcome<T>)
}

=== FILE: fallible.dfy ===
/** How Python calls end, as far as the runner observes them: a call returns
    a value or raises an exception, and `d[key]` on a missing key raises
    `KeyError`. */
module Fallible {

  /** `None` stands for an absent dictionary key. */
  datatype Option<+T> = None | Some(value: T)

  /** The exception classes the runner tells apart. Each stands for exactly
      that class: subclasses are not told apart from other classes. */
  datatype ExceptionClass = ValueError | TimeoutError | KeyError | OtherError(name: string)

  /** A raised exception; `message` is what `str(e)` gives. */
  datatype Exception = Exception(cls: ExceptionClass, message: string)

  /** The result of calling a Python callable. */
  datatype Outcome<+T> = Returns(value: T) | Raises(exc: Exception)

  /** The exception `d[key]` raises when `key` is missing (`str` of a
      `KeyError` is the quoted key). */
  function MissingKey(key: string): Exception {
    Exception(KeyError, "'" + key + "'")
  }

  /** The exception a call raised, if it raised one. */
  function ExceptionOf<T>(o: Outcome<T>): Option<Exception> {
    match o
    case Returns(_) => None
    case Raises(e) => Some(e)
  }
}

=== FILE: runner_properties.dfy ===
/** Properties of `YouTubeTestRunner.run` that relate several calls of the
    model: what an item's record says afterwards, which items an iteration
    hands to postprocessing, and how the capabilities and the page token
    steer the run. */
module RunnerProperties {
  import opened Fallible
  import opened Testplan
  import opened Annotations
  import opened Collaborators
  import opened Trace
  import opened YoutubeRunner

  /** Processing an item writes only the four output keys: every other
      field of the record is kept, and none is added. Nor is any key
      removed: an output key the record already carried stays, with its
      value, unless the pipeline's verdict writes that very key. */
  lemma ProcessVideoKeepsFields(env: Env, cfg: Config, site: Site, details: Record)
    ensures var r := ProcessVideo(env, cfg, site, details);
      r.exit.Returns? ==>
        forall k | !IsOutputKey(k) ::
          && (k in r.exit.value <==> k in details)
          && (k in details ==> r.exit.value[k] == details[k])
    ensures var r := ProcessVideo(env, cfg, site, details);
      var p := RunPipeline(env, site, details, cfg.audioDir);
      r.exit.Returns? ==>
        && p.exit.Returns?
        && details.Keys <= r.exit.value.Keys
        && (forall k | k in details && !Writes(p.exit.value, cfg.saveTranscripts, k) ::
              r.exit.value[k] == details[k])
  {
  }

  /** A record that already carried an annotation keeps it beside the new
      one: a stale `error` next to fresh `results`, or stale `results` next
      to a fresh `error`, and it then reads back as inconsistent. */
  lemma StaleAnnotationSurvives(env: Env, cfg: Config, site: Site, details: Record)
    ensures var r := ProcessVideo(env, cfg, site, details);
      r.exit.Returns? && "error" in details && "results" in r.exit.value ==>
        && "error" in r.exit.value
        && Readback(r.exit.value) == Inconsistent
    ensures var r := ProcessVideo(env, cfg, site, details);
      var p := RunPipeline(env, site, details, cfg.audioDir);
      r.exit.Returns? && "results" in details && p.exit.value.Failed? ==>
        && "error" in r.exit.value
        && r.exit.value["results"] == details["results"]
        && Readback(r.exit.value) == Inconsistent
  {
  }

  /** After a successful load, the run is the load followed by the outer
      loop from iteration 0 on the loaded plan, with `ProcessVideo` under
      the run's configuration as the body of the inner loop: whatever the
      outer loop's lemmas state about `Iterate` holds of the run. */
  lemma RunIsLoop(env: Env, cfg: Config, caps: Capabilities, plan: Plan)
    requires caps.hasTranscriber && (cfg.iterations <= 1 || caps.googleApi)
    requires env.load == Returns(plan)
    ensures var rest := Iterate(env, ItemStep(env, cfg), cfg.iterations, 0, plan);
      Run(env, cfg, caps) == Traced([LoadPlan] + rest.trace, rest.exit)
  {
  }

  /** On a record that carried no output keys, what the record says after
      processing is what the calls did: an error names the stage whose call
      raised, with that exception's class and message; results are what
      `compare` returned for the two transcripts, which are stored exactly
      when transcripts are saved. */
  lemma ProcessVideoRecordsOutcome(env: Env, cfg: Config, site: Site, details: Record)
    requires Unannotated(details)
    ensures var r := ProcessVideo(env, cfg, site, details);
      r.exit.Returns? ==>
        match Readback(r.exit.value)
        case ErrorNote(s, m) =>
          && Last(r.trace).GuardedStage() == Some(s)
          && env.Raised(Last(r.trace)) == Some(Exception(CaughtClass(s), m))
        case ResultNote(res, ts) =>
          && |r.trace| == 5
          && r.trace[4].Compare?
          && env.compare(site, r.trace[4].model, r.trace[4].target) == Returns(res)
          && ts == (if cfg.saveTranscripts then Some((r.trace[4].model, r.trace[4].target)) else None)
        case _ => false
  {
    var p := RunPipeline(env, site, details, cfg.audioDir);
    if p.exit.Returns? {
      ReadbackAnnotate(details, p.exit.value, cfg.saveTranscripts);
    }
  }

  /** On a record that carried no output keys, processing leaves exactly one
      of `error` and `results`, and the two transcripts only beside results
      and only when transcripts are saved. */
  lemma ProcessVideoExclusive(env: Env, cfg: Config, site: Site, details: Record)
    requires Unannotated(details)
    ensures var r := ProcessVideo(env, cfg, site, details);
      r.exit.Returns? ==>
        && (("error" in r.exit.value) != ("results" in r.exit.value))
        && ("modelTranscript" in r.exit.value <==> "results" in r.exit.value && cfg.saveTranscripts)
        && ("targetTranscript" in r.exit.value <==> "results" in r.exit.value && cfg.saveTranscripts)
  {
  }

  /** An iteration that completes makes, before postprocessing, exactly
      the calls of each item's own step, whole and in plan order, and hands
      postprocessing the plan it was given with its items replaced by the
      items the inner loop produced, every item processed. */
  lemma IterationHandsOnItems(env: Env, step: (Site, Record) -> Traced<Record>, i: nat, plan: Plan)
    requires WellFormedStep(step)
    requires RunIteration(env, step, i, plan).exit.Returns?
    ensures plan.items.Some?
    ensures var v := ProcessItems(step, i, plan.items.value, 0);
      var t := RunIteration(env, step, i, plan).trace;
      && v.exit.Returns?
      && |t| >= 2
      && t[..|t| - 2] == StepCalls(step, i, plan.items.value, 0, |plan.items.value|)
      && t[|t| - 2] == Postprocess(i, plan.(items := Some(v.exit.value)))
  {
    var v := ProcessItems(step, i, plan.items.value, 0);
    var t := RunIteration(env, step, i, plan).trace;
    ItemsCallInOrder(step, i, plan.items.value, 0);
    assert t == v.trace + FinishIteration(env, i, plan.(items := Some(v.exit.value))).trace;
    assert t[..|t| - 2] == v.trace;
  }

  /** The record an item's processing returned keeps its other fields
      and carries exactly one of `error` and `results`, when the item
      carried no output keys. */
  ghost predicate AnnotatedFrom(after: Record, before: Record) {
    && (forall k {:trigger IsOutputKey(k)} | !IsOutputKey(k) :: (k in after <==> k in before) && (k in after ==> after[k] == before[k]))
    && (("error" in after) != ("results" in after))
  }

  lemma ItemAnnotated(env: Env, cfg: Config, site: Site, details: Record)
    requires Unannotated(details)
    ensures var r := ItemStep(env, cfg)(site, details);
      r.exit.Returns? ==> AnnotatedFrom(r.exit.value, details)
  {
  }

  /** A completed loop over items, with a step that annotates each record
      it returns, on items that carried no output keys: each record the
      loop returns is what the step gave for that item alone, and is
      annotated. */
  lemma ItemsAnnotated(step: (Site, Record) -> Traced<Record>, i: nat, items: seq<Record>)
    requires WellFormedStep(step)
    requires forall site, d | Unannotated(d) && step(site, d).exit.Returns? :: AnnotatedFrom(step(site, d).exit.value, d)
    requires forall j | 0 <= j < |items| :: Unannotated(items[j])
    ensures var v := ProcessItems(step, i, items, 0);
      v.exit.Returns? ==>
        && |v.exit.value| == |items|
        && forall j | 0 <= j < |items| ::
             && step(Site(i, j), items[j]).exit == Returns(v.exit.value[j])
             && AnnotatedFrom(v.exit.value[j], items[j])
  {
    var v := ProcessItems(step, i, items, 0);
    if v.exit.Returns? {
      ItemsProcessedIndependently(step, i, items, 0);
      forall j | 0 <= j < |items|
        ensures step(Site(i, j), items[j]).exit == Returns(v.exit.value[j])
        ensures AnnotatedFrom(v.exit.value[j], items[j])
      {
        var r := step(Site(i, j), items[j]);
        assert r.exit == Returns(v.exit.value[j - 0]);
      }
    }
  }

  /** In an iteration that completes, with a step that annotates each
      record it returns, on a plan whose items carried no output keys: each
      item handed to postprocessing is what the step gave for that item,
      and is annotated. */
  lemma IterationAnnotatesItems(env: Env, step: (Site, Record) -> Traced<Record>, i: nat, plan: Plan)
    requires WellFormedStep(step)
    requires forall site, d | Unannotated(d) && step(site, d).exit.Returns? :: AnnotatedFrom(step(site, d).exit.value, d)
    requires RunIteration(env, step, i, plan).exit.Returns?
    requires plan.items.Some? && forall j | 0 <= j < |plan.items.value| :: Unannotated(plan.items.value[j])
    ensures var t := RunIteration(env, step, i, plan).trace;
      var items := plan.items.value;
      && |t| >= 2
      && t[|t| - 2].Postprocess?
      && t[|t| - 2].plan.items.Some?
      && |t[|t| - 2].plan.items.value| == |items|
      && forall j | 0 <= j < |items| ::
           && step(Site(i, j), items[j]).exit == Returns(t[|t| - 2].plan.items.value[j])
           && AnnotatedFrom(t[|t| - 2].plan.items.value[j], items[j])
  {
    IterationHandsOnItems(env, step, i, plan);
    ItemsAnnotated(step, i, plan.items.value);
  }

  /** In an iteration that completes on a plan whose items carried no
      output keys, each item handed to postprocessing is that item's record
      after `ProcessVideo`, with its other fields kept and exactly one of
      `error` and `results`. */
  lemma EveryItemAnnotated(env: Env, cfg: Config, i: nat, plan: Plan)
    requires RunIteration(env, ItemStep(env, cfg), i, plan).exit.Returns?
    requires plan.items.Some? && forall j | 0 <= j < |plan.items.value| :: Unannotated(plan.items.value[j])
    ensures var t := RunIteration(env, ItemStep(env, cfg), i, plan).trace;
      var items := plan.items.value;
      && |t| >= 2
      && t[|t| - 2].Postprocess?
      && t[|t| - 2].plan.items.Some?
      && |t[|t| - 2].plan.items.value| == |items|
      && forall j | 0 <= j < |items| ::
           && ProcessVideo(env, cfg, Site(i, j), items[j]).exit == Returns(t[|t| - 2].plan.items.value[j])
           && AnnotatedFrom(t[|t| - 2].plan.items.value[j], items[j])
  {
    var step := ItemStep(env, cfg);
    forall site, d | Unannotated(d) && step(site, d).exit.Returns?
      ensures AnnotatedFrom(step(site, d).exit.value, d)
    {
      ItemAnnotated(env, cfg, site, d);
    }
    IterationAnnotatesItems(env, step, i, plan);
    var items := plan.items.value;
    forall j | 0 <= j < |items|
      ensures step(Site(i, j), items[j]) == ProcessVideo(env, cfg, Site(i, j), items[j])
    {
    }
  }

  /** An iteration aborted inside its items: the exception came from the
      last item it reached, every item before it was processed, and neither
      postprocess nor save ran. */
  lemma IterationAbortNamesItem(env: Env, step: (Site, Record) -> Traced<Record>, i: nat, plan: Plan)
    requires WellFormedStep(step)
    requires var r := RunIteration(env, step, i, plan); r.exit.Raises? && |r.trace| > 0 && Last(r.trace).IsItemCall()
    ensures plan.items.Some?
    ensures var r := RunIteration(env, step, i, plan);
      var items := plan.items.value;
      var last := |Marks(r.trace, Visited)| - 1;
      && 0 <= last < |items|
      && step(Site(i, last), items[last]).exit == Raises(r.exit.exc)
      && (forall j | 0 <= j < last :: step(Site(i, j), items[j]).exit.Returns?)
      && (forall e | e in r.trace :: e.IsItemCall())
  {
    ItemsBeforeAbortCompleted(step, i, plan.items.value, 0);
    AbortComesFromLastItem(step, i, plan.items.value, 0);
  }

  /** Whether the tester has a normalizer only decides a warning in the
      log: the run is the same either way. */
  lemma NormalizerIsAdvisory(env: Env, cfg: Config, caps: Capabilities, present: bool)
    ensures Run(env, cfg, caps.(hasNormalizer := present)) == Run(env, cfg, caps)
  {
  }

  /** With at most one iteration the `GoogleAPI` credential is not needed:
      the run is the same with or without it, and `generate` is never
      called. */
  lemma SingleIterationNeedsNoCredential(env: Env, cfg: Config, caps: Capabilities)
    requires cfg.iterations <= 1
    ensures Run(env, cfg, caps.(googleApi := false)) == Run(env, cfg, caps.(googleApi := true))
    ensures forall e | e in Run(env, cfg, caps).trace :: !e.Generate?
  {
    NoPaginationWithinOneIteration(Run(env, cfg, caps).trace, cfg.iterations, Run(env, cfg, caps).exit.Returns?);
  }

  lemma NoPaginationWithinOneIteration(t: seq<Event>, iterations: int, completed: bool)
    requires iterations <= 1
    requires |t| == 0 || LoadsThenPaginates(t, iterations, completed)
    ensures forall e | e in t :: !e.Generate?
  {
    if |t| > 0 {
      assert Marks(t, Generated) == [];
      MarksEmpty(t, Generated);
    }
  }

  /** An exception that escapes an iteration before its save ends the run:
      nothing after it is called, so that iteration and all later ones go
      unsaved. */
  lemma AbortEndsRun(env: Env, step: (Site, Record) -> Traced<Record>, iterations: int, i: nat, plan: Plan)
    requires WellFormedStep(step)
    requires i < iterations
    requires RunIteration(env, step, i, plan).exit.Raises?
    ensures var it := RunIteration(env, step, i, plan);
      && Iterate(env, step, iterations, i, plan) == Traced(it.trace, Raises(it.exit.exc))
      && (|it.trace| == 0 || !Last(it.trace).SaveResults? ==> forall e | e in it.trace :: !e.SaveResults?)
  {
    var it := RunIteration(env, step, i, plan);
    if |it.trace| == 0 || !Last(it.trace).SaveResults? {
      MarksEmpty(it.trace, Saved);
    }
  }

  /** A plan without `nextPageToken` is saved, and then reading the token
      for the next page raises `KeyError`, which ends the run. */
  lemma MissingPageTokenAbortsAfterSave(env: Env, step: (Site, Record) -> Traced<Record>, iterations: int, i: nat, plan: Plan)
    requires WellFormedStep(step)
    requires i + 1 < iterations
    requires var it := RunIteration(env, step, i, plan);
      it.exit.Returns? && it.exit.value.args.Some? && it.exit.value.nextPageToken.None?
    ensures var it := RunIteration(env, step, i, plan);
      && Iterate(env, step, iterations, i, plan) == Traced(it.trace, Raises(MissingKey("nextPageToken")))
      && Last(it.trace) == SaveResults(i, it.exit.value)
      && env.save(i, it.exit.value).Returns?
  {
  }

  /** A saved plan without `args` cannot give the next page: reading
      `args` raises `KeyError` before the token is read, ending the run
      right after the save. */
  lemma MissingArgsAbortsAfterSave(env: Env, step: (Site, Record) -> Traced<Record>, iterations: int, i: nat, plan: Plan)
    requires WellFormedStep(step)
    requires i + 1 < iterations
    requires var it := RunIteration(env, step, i, plan); it.exit.Returns? && it.exit.value.args.None?
    ensures var it := RunIteration(env, step, i, plan);
      && Iterate(env, step, iterations, i, plan) == Traced(it.trace, Raises(MissingKey("args")))
      && Last(it.trace) == SaveResults(i, it.exit.value)
  {
  }

  /** When `generate` raises, its own exception ends the run right after
      that call. */
  lemma GenerateFailureEndsRun(env: Env, step: (Site, Record) -> Traced<Record>, iterations: int, i: nat, plan: Plan, x: Exception)
    requires WellFormedStep(step)
    requires i + 1 < iterations
    requires var it := RunIteration(env, step, i, plan);
      && it.exit.Returns? && NextArgs(it.exit.value).Returns?
      && env.generate(i, NextArgs(it.exit.value).value) == Raises(x)
    ensures var it := RunIteration(env, step, i, plan);
      Iterate(env, step, iterations, i, plan) == Traced(it.trace + [Generate(i, NextArgs(it.exit.value).value)], Raises(x))
  {
  }

  /** The last iteration, once saved, ends the loop: nothing is called
      after its save and the loop completes. */
  lemma LastIterationCompletes(env: Env, step: (Site, Record) -> Traced<Record>, iterations: int, i: nat, plan: Plan)
    requires WellFormedStep(step)
    requires i + 1 == iterations
    requires RunIteration(env, step, i, plan).exit.Returns?
    ensures var it := RunIteration(env, step, i, plan);
      && Iterate(env, step, iterations, i, plan) == Traced(it.trace, Returns(()))
      && Last(it.trace) == SaveResults(i, it.exit.value)
  {
  }

  /** The token of the saved plan, JSON `null` included, is what the next
      page is asked for: right after the save, `generate` is called with the
      saved plan's `args` and that token as `pageToken`. */
  lemma PageTokenHandedOn(env: Env, step: (Site, Record) -> Traced<Record>, iterations: int, i: nat, plan: Plan)
    requires WellFormedStep(step)
    requires i + 1 < iterations
    requires var it := RunIteration(env, step, i, plan);
      it.exit.Returns? && it.exit.value.args.Some? && it.exit.value.nextPageToken.Some?
    ensures var it := RunIteration(env, step, i, plan);
      var saved := it.exit.value;
      var r := Iterate(env, step, iterations, i, plan);
      && |r.trace| > |it.trace|
      && r.trace[..|it.trace|] == it.trace
      && Last(it.trace) == SaveResults(i, saved)
      && r.trace[|it.trace|] == Generate(i, saved.args.value["pageToken" := saved.nextPageToken.value])
  {
  }

  /** Pagination hands on the generated plan: after a saved iteration that
      is not the last, the loop calls `generate` with the saved plan's
      next-page arguments, and when that returns a plan, iteration `i + 1`
      and all later ones run on it. */
  lemma NextIterationOnGeneratedPlan(env: Env, step: (Site, Record) -> Traced<Record>, iterations: int, i: nat, plan: Plan, next: Plan)
    requires WellFormedStep(step)
    requires i + 1 < iterations
    requires var it := RunIteration(env, step, i, plan);
      && it.exit.Returns? && NextArgs(it.exit.value).Returns?
      && env.generate(i, NextArgs(it.exit.value).value) == Returns(next)
    ensures var it := RunIteration(env, step, i, plan);
      var rest := Iterate(env, step, iterations, i + 1, next);
      Iterate(env, step, iterations, i, plan)
        == Traced(it.trace + [Generate(i, NextArgs(it.exit.value).value)] + rest.trace, rest.exit)
  {
  }

  /** The first iteration runs on the loaded plan, with `ProcessVideo`
      under the run's configuration as the body of its inner loop: after the
      load, the run's calls start with that iteration's calls, and an
      exception it raises ends the run there. */
  lemma FirstIterationOnLoadedPlan(env: Env, cfg: Config, caps: Capabilities, plan: Plan)
    requires caps.hasTranscriber && (cfg.iterations <= 1 || caps.googleApi)
    requires env.load == Returns(plan) && cfg.iterations > 0
    ensures var r := Run(env, cfg, caps);
      var it := RunIteration(env, ItemStep(env, cfg), 0, plan);
      && [LoadPlan] + it.trace <= r.trace
      && (it.exit.Raises? ==> r == Traced([LoadPlan] + it.trace, Raises(it.exit.exc)))
  {
    var step := ItemStep(env, cfg);
    var rest := Iterate(env, step, cfg.iterations, 0, plan);
    var it := RunIteration(env, step, 0, plan);
    assert Run(env, cfg, caps) == Traced([LoadPlan] + rest.trace, rest.exit);
    PrefixAfterLoad(it.trace, rest.trace);
    if it.exit.Raises? {
      AbortEndsRun(env, step, cfg.iterations, 0, plan);
    }
  }

  lemma PrefixAfterLoad(a: seq<Event>, b: seq<Event>)
    requires a <= b
    ensures [LoadPlan] + a <= [LoadPlan] + b
  {
    assert ([LoadPlan] + b)[..1 + |a|] == [LoadPlan] + b[..|a|];
  }

  /** The plan `{"args": {"q": "test"}, "nextPageToken": "token"}` asks
      for its next page with `{"q": "test", "pageToken": "token"}`. */
  lemma NextPageOfSearch()
    ensures NextArgs(Plan(Some(map["q" := Str("test")]), Some([]), Some(Str("token")), map[]))
         == Returns(map["q" := Str("test"), "pageToken" := Str("token")])
  {
  }
}

=== FILE: testplan.dfy ===
/** The test plan: the JSON document the runner loads, annotates and saves. */
module Testplan {
  import opened Fallible

  /** A JSON value as `json.load` produces it. Only integral numbers are
      represented; the runner never looks inside numbers. */
  datatype Value =
    | Null
    | Bool(b: bool)
    | Number(n: int)
    | Str(s: string)
    | Array(elems: seq<Value>)
    | Object(fields: map<string, Value>)

  /** A JSON object: one video's details, or the search arguments. */
  type Record = map<string, Value>

  /** The top-level keys of a plan other than the three the runner reads,
      for instance aggregates a postprocessing step adds. */
  type OtherKeys = m: Record | "args" !in m && "items" !in m && "nextPageToken" !in m
    witness map[]

  /** A test plan. Each of the three top-level keys the runner reads may be
      missing (`None`); `nextPageToken` may also be present and JSON `null`
      (`Some(Null)`). `other` holds every other top-level key. */
  datatype Plan = Plan(
    args: Option<Record>,
    items: Option<seq<Record>>,
    nextPageToken: Option<Value>,
    other: OtherKeys)

  /** `video_details`: the plan's items, in plan order; a plan without
      `items` makes the first step of the generator raise `KeyError`. */
  function VideoDetails(plan: Plan): (r: Outcome<seq<Record>>)
    ensures r.Raises? <==> plan.items.None?
    ensures r.Raises? ==> r.exc == MissingKey("items")
    ensures r.Returns? ==> r.value == plan.items.value
  {
    match plan.items
    case None => Raises(MissingKey("items"))
    case Some(items) => Returns(items)
  }
}

=== FILE: trace.dfy ===
/** Projections of a trace that the run-level properties are stated with. */
module Trace {
  import opened Fallible
  import opened Collaborators

  /** The kinds of call whose occurrences are counted. */
  datatype Kind = Visited | Postprocessed | Saved | Generated

  /** For an event of the kind: the item index it visits (`from_dict`
      starts an item), or the iteration it belongs to. */
  function Mark(e: Event, k: Kind): Option<nat> {
    match k
    case Visited => if e.FromDict? then Some(e.site.index) else None
    case Postprocessed => if e.Postprocess? then Some(e.iteration) else None
    case Saved => if e.SaveResults? then Some(e.iteration) else None
    case Generated => if e.Generate? then Some(e.iteration) else None
  }

  /** The marks of the events of one kind, in trace order. */
  function Marks(t: seq<Event>, k: Kind): seq<nat>
    decreases |t|
  {
    if |t| == 0 then []
    else
      (match Mark(t[0], k) case Some(n) => [n] case None => []) + Marks(t[1..], k)
  }

  /** The consecutive numbers `lo, lo + 1, ..., lo + n - 1`. */
  function Range(lo: nat, n: nat): seq<nat> {
    seq(n, j requires 0 <= j < n => lo + j)
  }

  /** `max(x, 0)`. */
  function Max0(x: int): nat {
    if x > 0 then x else 0
  }

  lemma {:induction false} MarksAppend(a: seq<Event>, b: seq<Event>, k: Kind)
    ensures Marks(a + b, k) == Marks(a, k) + Marks(b, k)
    decreases |a|
  {
    if |a| == 0 {
      assert a + b == b;
    } else {
      assert (a + b)[1..] == a[1..] + b;
      MarksAppend(a[1..], b, k);
    }
  }

  lemma {:induction false} MarksNone(t: seq<Event>, k: Kind)
    requires forall e | e in t :: Mark(e, k).None?
    ensures Marks(t, k) == []
    decreases |t|
  {
    if |t| > 0 {
      MarksNone(t[1..], k);
    }
  }

  /** Conversely, a trace without marks of a kind has no event of it. */
  lemma {:induction false} MarksEmpty(t: seq<Event>, k: Kind)
    requires Marks(t, k) == []
    ensures forall e | e in t :: Mark(e, k).None?
    decreases |t|
  {
    if |t| > 0 {
      MarksEmpty(t[1..], k);
      assert forall e | e in t :: e == t[0] || e in t[1..];
    }
  }

  /** A trace whose first event alone carries a mark has that one mark. */
  lemma MarksFirstOnly(t: seq<Event>, k: Kind)
    requires |t| > 0 && Mark(t[0], k).Some?
    requires forall j | 1 <= j < |t| :: Mark(t[j], k).None?
    ensures Marks(t, k) == [Mark(t[0], k).value]
  {
    MarksNone(t[1..], k);
  }

  lemma RangeSplit(lo: nat, n: nat)
    ensures Range(lo, n + 1) == [lo] + Range(lo + 1, n)
  {
  }
}

=== FILE: youtube_runner.dfy ===
/** `YouTubeTestRunner.run`: the fail-fast checks, the per-item pipeline
    with its failure isolation, the per-iteration postprocess and save, and
    the hand-off to the next page of the plan. */
module YoutubeRunner {
  import opened Fallible
  import opened Testplan
  import opened Annotations
  import opened Collaborators
  import opened Trace

  /** The runner's constructor arguments. `iterations` is any integer, as
      `range` accepts. */
  datatype Config = Config(iterations: int, saveTranscripts: bool, audioDir: Path)

  /** What `run` checks before it opens the plan: the tester's transcriber
      and normalizer, and whether `GoogleAPI` is in the process environment. */
  datatype Capabilities = Capabilities(hasTranscriber: bool, hasNormalizer: bool, googleApi: bool)

  const TranscriberMissing := Exception(ValueError, "Transcriber is None")

  const CredentialMissing := Exception(ValueError,
    "GoogleAPI not in the environment, can not generate more test plans. Add GoogleAPI or set iterations to 1.")

  /** The last call of a non-empty trace. */
  function Last(t: seq<Event>): Event
    requires |t| > 0
  {
    t[|t| - 1]
  }

  /** An exception raised inside a stage's `try`: caught and turned into a
      failed verdict when it is of the stage's class, propagated otherwise. */
  function Catch(x: Exception, s: Stage): (r: Outcome<Verdict>)
    ensures r.Returns? <==> x.cls == CaughtClass(s)
    ensures r.Returns? ==> r.value == Failed(s, x.message)
    ensures r.Raises? ==> r.exc == x
  {
    if x.cls == CaughtClass(s) then Returns(Failed(s, x.message)) else Raises(x)
  }

  /** One item's stages: `from_dict`, then download, transcription, the
      reference transcript and `compare`, each run only if the one before
      returned. */
  function RunPipeline(env: Env, site: Site, details: Record, audioDir: Path): (r: Traced<Verdict>)
    // the calls are the pipeline's stages in order, each at most once, all for this item
    ensures 1 <= |r.trace| <= 5
    ensures forall k | 0 <= k < |r.trace| :: r.trace[k].IsItemCall() && r.trace[k].Rank() == k && r.trace[k].site == site
    ensures r.trace[0] == FromDict(site, details)
    // each stage runs only after the previous one returned, and each consumes its output
    ensures forall k | 0 <= k < |r.trace| - 1 :: env.Raised(r.trace[k]).None?
    ensures |r.trace| > 1 ==>
      && r.trace[1].DownloadMp3?
      && env.fromDict(site, details) == Returns(r.trace[1].video)
      && r.trace[1].audioDir == audioDir
    ensures |r.trace| > 2 ==>
      && r.trace[2].Transcribe?
      && env.downloadMp3(site, r.trace[1].video, audioDir) == Returns(r.trace[2].audio)
    ensures |r.trace| > 3 ==> r.trace[3] == YoutubeTranscript(site, r.trace[1].video, env.language)
    ensures |r.trace| > 4 ==>
      && r.trace[4].Compare?
      && env.transcribe(site, r.trace[2].audio) == Returns(r.trace[4].model)
      && env.youtubeTranscript(site, r.trace[1].video, env.language) == Returns(r.trace[4].target)
    // the pipeline stops only at a raising call or after compare
    ensures env.Raised(Last(r.trace)).None? <==> |r.trace| == 5 && r.exit.Returns?
    // a caught failure: the last call is the failing stage, with the caught class
    ensures r.exit.Returns? && r.exit.value.Failed? ==>
      && Last(r.trace).GuardedStage() == Some(r.exit.value.stage)
      && env.Raised(Last(r.trace)) == Some(Exception(CaughtClass(r.exit.value.stage), r.exit.value.message))
    // a scored item: compare ran once, on the two transcripts, and gave the results
    ensures r.exit.Returns? && r.exit.value.Scored? ==>
      && |r.trace| == 5
      && Last(r.trace) == Compare(site, r.exit.value.model, r.exit.value.target)
      && env.compare(site, r.exit.value.model, r.exit.value.target) == Returns(r.exit.value.results)
    // anything else propagates: the last call raised it, outside the class its stage catches
    ensures r.exit.Raises? ==>
      && env.Raised(Last(r.trace)) == Some(r.exit.exc)
      && (Last(r.trace).GuardedStage().Some? ==>
            r.exit.exc.cls != CaughtClass(Last(r.trace).GuardedStage().value))
  {
    var e0 := FromDict(site, details);
    match env.fromDict(site, details)
    case Raises(x) => Traced([e0], Raises(x))
    case Returns(video) =>
      var e1 := DownloadMp3(site, video, audioDir);
      match env.downloadMp3(site, video, audioDir)
      case Raises(x) => Traced([e0, e1], Catch(x, AudioDownload))
      case Returns(audio) =>
        var e2 := Transcribe(site, audio);
        match env.transcribe(site, audio)
        case Raises(x) => Traced([e0, e1, e2], Catch(x, ModelTranscript))
        case Returns(model) =>
          var e3 := YoutubeTranscript(site, video, env.language);
          match env.youtubeTranscript(site, video, env.language)
          case Raises(x) => Traced([e0, e1, e2, e3], Catch(x, TargetTranscript))
          case Returns(target) =>
            var e4 := Compare(site, model, target);
            match env.compare(site, model, target)
            case Raises(x) => Traced([e0, e1, e2, e3, e4], Raises(x))
            case Returns(res) => Traced([e0, e1, e2, e3, e4], Returns(Scored(model, target, res)))
  }

  /** The body of the inner loop for one record: run the pipeline, then
      write its verdict onto the record. */
  function ProcessVideo(env: Env, cfg: Config, site: Site, details: Record): (r: Traced<Record>)
    ensures 1 <= |r.trace| <= 5 && r.trace[0] == FromDict(site, details)
    // the audio is downloaded into the runner's audio directory
    ensures |r.trace| > 1 ==> r.trace[1].DownloadMp3? && r.trace[1].audioDir == cfg.audioDir
    ensures forall k | 0 <= k < |r.trace| :: r.trace[k].IsItemCall() && r.trace[k].Rank() == k && r.trace[k].site == site
    // an exception escapes the item only from its last call, and never one its stage catches
    ensures r.exit.Raises? ==>
      && env.Raised(Last(r.trace)) == Some(r.exit.exc)
      && (Last(r.trace).GuardedStage().Some? ==>
            r.exit.exc.cls != CaughtClass(Last(r.trace).GuardedStage().value))
  {
    var p := RunPipeline(env, site, details, cfg.audioDir);
    match p.exit
    case Raises(x) => Traced(p.trace, Raises(x))
    case Returns(v) =>
      Traced(p.trace, Returns(Annotate(details, v, cfg.saveTranscripts)))
  }

  /** The calls of one item's step: they start with `from_dict` and all
      belong to that item. */
  ghost predicate StartsOneItem(t: seq<Event>, site: Site) {
    && |t| > 0
    && t[0].FromDict?
    && forall k | 0 <= k < |t| :: t[k].IsItemCall() && t[k].site == site && (k > 0 ==> !t[k].FromDict?)
  }

  /** A per-item step whose calls always form one item's calls. */
  ghost predicate WellFormedStep(step: (Site, Record) -> Traced<Record>) {
    forall site, d :: StartsOneItem(step(site, d).trace, site)
  }

  /** A per-item step whose exceptions are always raised by its own last
      call. */
  ghost predicate RaisesFromLastCall(env: Env, step: (Site, Record) -> Traced<Record>) {
    forall site, d | step(site, d).exit.Raises? ::
      |step(site, d).trace| > 0 && env.Raised(Last(step(site, d).trace)) == Some(step(site, d).exit.exc)
  }

  /** The body of the inner loop as a step function of the item's site and
      record. */
  function ItemStep(env: Env, cfg: Config): (step: (Site, Record) -> Traced<Record>)
    ensures WellFormedStep(step)
    ensures RaisesFromLastCall(env, step)
  {
    (site, d) => ProcessVideo(env, cfg, site, d)
  }

  /** The calls of the steps for items `from` to `to - 1`, one whole item
      after the other. */
  ghost function StepCalls(step: (Site, Record) -> Traced<Record>, iteration: nat, items: seq<Record>, from: nat, to: nat): seq<Event>
    requires from <= to <= |items|
    decreases |items| - from
  {
    if from == to then []
    else step(Site(iteration, from), items[from]).trace + StepCalls(step, iteration, items, from + 1, to)
  }

  lemma StepCallsUnfold(step: (Site, Record) -> Traced<Record>, iteration: nat, items: seq<Record>, from: nat, n: nat)
    requires from + 1 + n <= |items|
    ensures StepCalls(step, iteration, items, from, from + 1 + n)
         == step(Site(iteration, from), items[from]).trace + StepCalls(step, iteration, items, from + 1, from + 1 + n)
    ensures n == 0 ==> StepCalls(step, iteration, items, from, from + 1) == step(Site(iteration, from), items[from]).trace
  {
    if n == 0 {
      assert step(Site(iteration, from), items[from]).trace + [] == step(Site(iteration, from), items[from]).trace;
    }
  }

  /** The inner loop from position `from` on: `step` is applied to the
      records `items[from..]` in plan order, the `j`-th record being item
      `j` of the iteration (as `enumerate` numbers it); the first exception
      that escapes a step ends the loop. */
  function ProcessItems(step: (Site, Record) -> Traced<Record>, iteration: nat, items: seq<Record>, from: nat): (r: Traced<seq<Record>>)
    requires WellFormedStep(step)
    requires from <= |items|
    decreases |items| - from
    // every call belongs to one of these items of this iteration
    ensures forall e | e in r.trace ::
      e.IsItemCall() && e.site.iteration == iteration && from <= e.site.index < |items|
    // items are started in plan order, none skipped, none twice
    ensures Marks(r.trace, Visited) == Range(from, |Marks(r.trace, Visited)|)
    ensures from + |Marks(r.trace, Visited)| <= |items|
    ensures r.exit.Returns? ==> from + |Marks(r.trace, Visited)| == |items|
    // nothing added or removed
    ensures r.exit.Returns? ==> |r.exit.value| == |items| - from
  {
    if from == |items| then Traced([], Returns([]))
    else
      var head := step(Site(iteration, from), items[from]);
      assert StartsOneItem(head.trace, Site(iteration, from));
      MarksFirstOnly(head.trace, Visited);
      match head.exit
      case Raises(x) => Traced(head.trace, Raises(x))
      case Returns(d) =>
        var tail := ProcessItems(step, iteration, items, from + 1);
        MarksAppend(head.trace, tail.trace, Visited);
        RangeSplit(from, |Marks(tail.trace, Visited)|);
        var exit := match tail.exit
          case Returns(ds) => Returns([d] + ds)
          case Raises(x) => Raises(x);
        Traced(head.trace + tail.trace, exit)
  }

  /** The loop's calls are those of each started item's own step, whole
      and in plan order. */
  lemma {:induction false} ItemsCallInOrder(step: (Site, Record) -> Traced<Record>, iteration: nat, items: seq<Record>, from: nat)
    requires WellFormedStep(step)
    requires from <= |items|
    ensures var r := ProcessItems(step, iteration, items, from);
      r.trace == StepCalls(step, iteration, items, from, from + |Marks(r.trace, Visited)|)
    decreases |items| - from
  {
    var r := ProcessItems(step, iteration, items, from);
    if from < |items| {
      var head := step(Site(iteration, from), items[from]);
      assert StartsOneItem(head.trace, Site(iteration, from));
      MarksFirstOnly(head.trace, Visited);
      if head.exit.Returns? {
        var tail := ProcessItems(step, iteration, items, from + 1);
        assert r.trace == head.trace + tail.trace;
        ItemsCallInOrder(step, iteration, items, from + 1);
        MarksAppend(head.trace, tail.trace, Visited);
        StepCallsUnfold(step, iteration, items, from, |Marks(tail.trace, Visited)|);
      } else {
        assert r.trace == head.trace;
        StepCallsUnfold(step, iteration, items, from, 0);
      }
    }
  }

  /** Failure isolation, completed loop: each record the loop returns is
      exactly what the step gives for that record alone. */
  lemma {:induction false} ItemsProcessedIndependently(step: (Site, Record) -> Traced<Record>, iteration: nat, items: seq<Record>, from: nat)
    requires WellFormedStep(step)
    requires from <= |items|
    ensures var r := ProcessItems(step, iteration, items, from);
      r.exit.Returns? ==> forall j | from <= j < |items| ::
        step(Site(iteration, j), items[j]).exit == Returns(r.exit.value[j - from])
    decreases |items| - from
  {
    var r := ProcessItems(step, iteration, items, from);
    if from < |items| && r.exit.Returns? {
      var head := step(Site(iteration, from), items[from]);
      var tail := ProcessItems(step, iteration, items, from + 1);
      assert r.exit.value == [head.exit.value] + tail.exit.value;
      ItemsProcessedIndependently(step, iteration, items, from + 1);
      forall j | from < j < |items|
        ensures step(Site(iteration, j), items[j]).exit == Returns(r.exit.value[j - from])
      {
        assert r.exit.value[j - from] == tail.exit.value[j - (from + 1)];
      }
    }
  }

  /** Failure isolation, aborted loop: an exception that escapes the loop is
      the one the last started item raised, every earlier item having
      completed. */
  lemma {:induction false} AbortComesFromLastItem(step: (Site, Record) -> Traced<Record>, iteration: nat, items: seq<Record>, from: nat)
    requires WellFormedStep(step)
    requires from <= |items|
    ensures var r := ProcessItems(step, iteration, items, from);
      r.exit.Raises? ==>
        var last := from + |Marks(r.trace, Visited)| - 1;
        && from <= last < |items|
        && step(Site(iteration, last), items[last]).exit == Raises(r.exit.exc)
    decreases |items| - from
  {
    var r := ProcessItems(step, iteration, items, from);
    if from < |items| && r.exit.Raises? {
      var head := step(Site(iteration, from), items[from]);
      assert StartsOneItem(head.trace, Site(iteration, from));
      MarksFirstOnly(head.trace, Visited);
      if head.exit.Returns? {
        var tail := ProcessItems(step, iteration, items, from + 1);
        assert r.trace == head.trace + tail.trace && r.exit == tail.exit;
        AbortComesFromLastItem(step, iteration, items, from + 1);
        MarksAppend(head.trace, tail.trace, Visited);
        var last := from + |Marks(tail.trace, Visited)|;
        assert from + |Marks(r.trace, Visited)| - 1 == last;
        assert step(Site(iteration, last), items[last]).exit == Raises(tail.exit.exc);
      } else {
        assert r.trace == head.trace;
        assert |Marks(r.trace, Visited)| == 1;
      }
    }
  }

  /** Failure isolation, aborted loop: every item before the one that
      raised completed. */
  lemma {:induction false} ItemsBeforeAbortCompleted(step: (Site, Record) -> Traced<Record>, iteration: nat, items: seq<Record>, from: nat)
    requires WellFormedStep(step)
    requires from <= |items|
    ensures var r := ProcessItems(step, iteration, items, from);
      r.exit.Raises? ==>
        forall j | from <= j < from + |Marks(r.trace, Visited)| - 1 :: step(Site(iteration, j), items[j]).exit.Returns?
    decreases |items| - from
  {
    var r := ProcessItems(step, iteration, items, from);
    if from < |items| && r.exit.Raises? {
      var head := step(Site(iteration, from), items[from]);
      assert StartsOneItem(head.trace, Site(iteration, from));
      MarksFirstOnly(head.trace, Visited);
      if head.exit.Returns? {
        var tail := ProcessItems(step, iteration, items, from + 1);
        assert r.trace == head.trace + tail.trace && r.exit == tail.exit;
        ItemsBeforeAbortCompleted(step, iteration, items, from + 1);
        MarksAppend(head.trace, tail.trace, Visited);
        assert |Marks(r.trace, Visited)| == 1 + |Marks(tail.trace, Visited)|;
      } else {
        assert r.trace == head.trace;
      }
    }
  }

  /** With a step whose exceptions come from its own last call, an exception
      that escapes the loop is the one its last call raised. */
  lemma {:induction false} ItemsAbortFromLastCall(env: Env, step: (Site, Record) -> Traced<Record>, iteration: nat, items: seq<Record>, from: nat)
    requires WellFormedStep(step)
    requires from <= |items|
    ensures var r := ProcessItems(step, iteration, items, from);
      RaisesFromLastCall(env, step) && r.exit.Raises? ==>
        |r.trace| > 0 && env.Raised(Last(r.trace)) == Some(r.exit.exc)
    decreases |items| - from
  {
    var r := ProcessItems(step, iteration, items, from);
    if RaisesFromLastCall(env, step) && from < |items| && r.exit.Raises? {
      var head := step(Site(iteration, from), items[from]);
      if head.exit.Returns? {
        var tail := ProcessItems(step, iteration, items, from + 1);
        assert r.trace == head.trace + tail.trace && r.exit == tail.exit;
        ItemsAbortFromLastCall(env, step, iteration, items, from + 1);
        assert Last(r.trace) == Last(tail.trace);
      }
    }
  }

  /** The end of an iteration: `testplan_postprocess` once on the annotated
      plan, then `save_results` once on the plan it leaves. */
  function FinishIteration(env: Env, i: nat, processed: Plan): (r: Traced<Plan>)
    ensures 1 <= |r.trace| <= 2 && r.trace[0] == Postprocess(i, processed)
    ensures forall e | e in r.trace :: e.Postprocess? || e.SaveResults?
    ensures |r.trace| == 2 ==>
      && Last(r.trace).SaveResults?
      && Last(r.trace).iteration == i
      && env.postprocess(i, processed) == Returns(Last(r.trace).plan)
    ensures r.exit.Raises? ==> env.Raised(Last(r.trace)) == Some(r.exit.exc)
    ensures r.exit.Returns? ==> |r.trace| == 2 && Last(r.trace) == SaveResults(i, r.exit.value)
    ensures r.exit.Returns? ==> env.save(i, r.exit.value).Returns?
    ensures Marks(r.trace, Postprocessed) == [i]
    ensures Marks(r.trace, Saved) == (if |r.trace| == 2 then [i] else [])
  {
    var t1 := [Postprocess(i, processed)];
    assert Marks(t1, Postprocessed) == [i];
    MarksNone(t1, Saved);
    match env.postprocess(i, processed)
    case Raises(x) => Traced(t1, Raises(x))
    case Returns(final) =>
      var t2 := t1 + [SaveResults(i, final)];
      MarksNone([SaveResults(i, final)], Postprocessed);
      assert Marks([SaveResults(i, final)], Saved) == [i];
      MarksAppend(t1, [SaveResults(i, final)], Postprocessed);
      MarksAppend(t1, [SaveResults(i, final)], Saved);
      match env.save(i, final)
      case Raises(x) => Traced(t2, Raises(x))
      case Returns(_) => Traced(t2, Returns(final))
  }

  /** A completed iteration over `plan`: its calls are the items' calls,
      then `testplan_postprocess` once on the plan with annotated items and
      otherwise unchanged, then `save_results` once on the plan
      postprocessing left, which is `final`. */
  ghost predicate CompletesIteration(env: Env, i: nat, plan: Plan, t: seq<Event>, final: Plan) {
    && plan.items.Some?
    && |t| >= 2
    && (forall e | e in t[..|t| - 2] :: e.IsItemCall() && e.site.iteration == i)
    && t[|t| - 2].Postprocess?
    && t[|t| - 2].iteration == i
    && t[|t| - 2].plan.args == plan.args
    && t[|t| - 2].plan.nextPageToken == plan.nextPageToken
    && t[|t| - 2].plan.other == plan.other
    && t[|t| - 2].plan.items.Some?
    && |t[|t| - 2].plan.items.value| == |plan.items.value|
    && env.postprocess(i, t[|t| - 2].plan) == Returns(final)
    && Last(t) == SaveResults(i, final)
    && env.save(i, final).Returns?
  }

  /** The calls of an iteration that got past its items: the items' calls,
      then those of `FinishIteration`. */
  lemma ItemsThenFinish(env: Env, i: nat, plan: Plan, annotated: seq<Record>, items: seq<Event>, finish: Traced<Plan>)
    requires plan.items.Some? && |annotated| == |plan.items.value|
    requires forall e | e in items :: e.IsItemCall() && e.site.iteration == i
    requires finish == FinishIteration(env, i, plan.(items := Some(annotated)))
    ensures forall e | e in items + finish.trace :: !e.Generate? && !e.LoadPlan?
    ensures Last(items + finish.trace) == Last(finish.trace)
    ensures !Last(items + finish.trace).IsItemCall()
    ensures Marks(items + finish.trace, Saved) == (if Last(finish.trace).SaveResults? then [i] else [])
    ensures finish.exit.Returns? ==> CompletesIteration(env, i, plan, items + finish.trace, finish.exit.value)
  {
    ItemsThenFinishCalls(env, i, plan.(items := Some(annotated)), items, finish);
    if finish.exit.Returns? {
      var t := items + finish.trace;
      assert t[..|t| - 2] == items;
      assert t[|t| - 2] == finish.trace[0];
    }
  }

  lemma ItemsThenFinishCalls(env: Env, i: nat, processed: Plan, items: seq<Event>, finish: Traced<Plan>)
    requires forall e | e in items :: e.IsItemCall()
    requires finish == FinishIteration(env, i, processed)
    ensures forall e | e in items + finish.trace :: !e.Generate? && !e.LoadPlan?
    ensures Last(items + finish.trace) == Last(finish.trace)
    ensures !Last(items + finish.trace).IsItemCall()
    ensures Marks(items + finish.trace, Saved) == (if Last(finish.trace).SaveResults? then [i] else [])
  {
    var t := items + finish.trace;
    MarksNone(items, Saved);
    MarksAppend(items, finish.trace, Saved);
    assert t[|t| - 1] == finish.trace[|finish.trace| - 1];
    assert Last(finish.trace) in finish.trace;
    forall e | e in t
      ensures !e.Generate? && !e.LoadPlan?
    {
      if e !in items {
        assert e in finish.trace;
      }
    }
  }

  /** One pass of the outer loop: read `args` (logged), visit the items
      with `step`, postprocess the plan, save it. */
  function RunIteration(env: Env, step: (Site, Record) -> Traced<Record>, i: nat, plan: Plan): (r: Traced<Plan>)
    requires WellFormedStep(step)
    // no pagination call and no plan load inside an iteration
    ensures forall e | e in r.trace :: !e.Generate? && !e.LoadPlan?
    // a plan missing `args` or `items` raises before any item is touched
    ensures plan.args.None? ==> r == Traced([], Raises(MissingKey("args")))
    ensures plan.args.Some? && plan.items.None? ==> r == Traced([], Raises(MissingKey("items")))
    // save happens at most once, as the final call
    ensures Marks(r.trace, Saved) == (if |r.trace| > 0 && Last(r.trace).SaveResults? then [i] else [])
    // an exception raised by postprocess or save propagates
    ensures r.exit.Raises? && |r.trace| > 0 && !Last(r.trace).IsItemCall() ==>
      env.Raised(Last(r.trace)) == Some(r.exit.exc)
    ensures r.exit.Returns? ==> CompletesIteration(env, i, plan, r.trace, r.exit.value)
    // an exception from an item call is the inner loop's, with nothing after it
    ensures r.exit.Raises? && |r.trace| > 0 && Last(r.trace).IsItemCall() ==>
      && plan.items.Some?
      && ProcessItems(step, i, plan.items.value, 0) == Traced(r.trace, Raises(r.exit.exc))
    // once every item is processed, postprocess and save follow on the plan
    // holding the records, however they end
    ensures plan.args.Some? && plan.items.Some? && ProcessItems(step, i, plan.items.value, 0).exit.Returns? ==>
      var v := ProcessItems(step, i, plan.items.value, 0);
      var f := FinishIteration(env, i, plan.(items := Some(v.exit.value)));
      r == Traced(v.trace + f.trace, f.exit)
  {
    if plan.args.None? then Traced([], Raises(MissingKey("args")))
    else
      match VideoDetails(plan)
      case Raises(x) => Traced([], Raises(x))
      case Returns(items) =>
        var visited := ProcessItems(step, i, items, 0);
        MarksNone(visited.trace, Saved);
        match visited.exit
        case Raises(x) => Traced(visited.trace, Raises(x))
        case Returns(annotated) =>
          var finish := FinishIteration(env, i, plan.(items := Some(annotated)));
          ItemsThenFinish(env, i, plan, annotated, visited.trace, finish);
          Traced(visited.trace + finish.trace, finish.exit)
  }

  /** The arguments for the next page: the plan's own `args` with
      `pageToken` overwritten by its `nextPageToken`. Reading a missing key
      raises `KeyError`; a JSON `null` token is passed on as is. */
  function NextArgs(plan: Plan): (r: Outcome<Record>)
    ensures plan.args.None? ==> r == Raises(MissingKey("args"))
    ensures plan.args.Some? && plan.nextPageToken.None? ==> r == Raises(MissingKey("nextPageToken"))
    ensures r.Returns? <==> plan.args.Some? && plan.nextPageToken.Some?
    ensures r.Returns? ==> r.value.Keys == plan.args.value.Keys + {"pageToken"}
    ensures r.Returns? ==> r.value["pageToken"] == plan.nextPageToken.value
    ensures r.Returns? ==>
      forall k | k in plan.args.value && k != "pageToken" :: r.value[k] == plan.args.value[k]
  {
    match plan.args
    case None => Raises(MissingKey("args"))
    case Some(args) =>
      match plan.nextPageToken
      case None => Raises(MissingKey("nextPageToken"))
      case Some(token) => Returns(args["pageToken" := token])
  }

  /** Every call to `generate` comes right after the save of the same
      iteration, with the saved plan's `args` and `nextPageToken`. */
  ghost predicate HandOff(t: seq<Event>) {
    forall k | 0 <= k < |t| && t[k].Generate? ::
      && 0 < k
      && t[k - 1].SaveResults?
      && t[k - 1].iteration == t[k].iteration
      && NextArgs(t[k - 1].plan) == Returns(t[k].args)
  }

  /** Joining one iteration, the `generate` call after it, and the calls of
      the later iterations. */
  lemma PaginationJoin(a: seq<Event>, g: Event, b: seq<Event>, i: nat, saves: nat, generates: nat)
    requires forall e | e in a :: !e.Generate? && !e.LoadPlan?
    requires |a| > 0 && Last(a).SaveResults? && Last(a).iteration == i && Marks(a, Saved) == [i]
    requires g.Generate? && g.iteration == i && NextArgs(Last(a).plan) == Returns(g.args)
    requires HandOff(b) && forall e | e in b :: !e.LoadPlan?
    requires Marks(b, Saved) == Range(i + 1, saves) && Marks(b, Generated) == Range(i + 1, generates)
    ensures forall e | e in a + [g] + b :: !e.LoadPlan?
    ensures HandOff(a + [g] + b)
    ensures Marks(a + [g] + b, Saved) == Range(i, saves + 1)
    ensures Marks(a + [g] + b, Generated) == Range(i, generates + 1)
  {
    HandOffJoin(a, g, b);
    MarksNone(a, Generated);
    MarksAppend(a, [g], Saved);
    MarksAppend(a, [g], Generated);
    MarksAppend(a + [g], b, Saved);
    MarksAppend(a + [g], b, Generated);
    MarksNone([g], Saved);
    RangeSplit(i, saves);
    RangeSplit(i, generates);
    assert forall e | e in a + [g] + b :: e in a || e == g || e in b;
  }

  lemma HandOffJoin(a: seq<Event>, g: Event, b: seq<Event>)
    requires forall e | e in a :: !e.Generate?
    requires |a| > 0 && Last(a).SaveResults? && g.Generate? && Last(a).iteration == g.iteration
    requires NextArgs(Last(a).plan) == Returns(g.args)
    requires HandOff(b)
    ensures HandOff(a + [g] + b)
  {
  }

  /** What the outer loop promises about its calls from iteration `i` on:
      no plan load; one save per iteration, in iteration order, all
      `max(iterations - i, 0)` of them when the loop completes; a call to
      `generate` only between two iterations, hence one fewer; and each
      `generate` handed the arguments of the save just before it. */
  ghost predicate Paginates(t: seq<Event>, iterations: int, i: nat, completed: bool) {
    && (forall e | e in t :: !e.LoadPlan?)
    && Marks(t, Saved) == Range(i, |Marks(t, Saved)|)
    && |Marks(t, Saved)| <= Max0(iterations - i)
    && (completed ==> |Marks(t, Saved)| == Max0(iterations - i))
    && Marks(t, Generated) == Range(i, |Marks(t, Generated)|)
    && |Marks(t, Generated)| <= Max0(iterations - i - 1)
    && (completed ==> |Marks(t, Generated)| == Max0(iterations - i - 1))
    && HandOff(t)
  }

  /** The loop stops within iteration `i`: after it, or on an exception. */
  lemma PaginatesStop(t: seq<Event>, iterations: int, i: nat, completed: bool)
    requires i < iterations
    requires forall e | e in t :: !e.Generate? && !e.LoadPlan?
    requires Marks(t, Saved) == [] || Marks(t, Saved) == [i]
    requires completed ==> Marks(t, Saved) == [i] && iterations <= i + 1
    ensures Paginates(t, iterations, i, completed)
  {
    MarksNone(t, Generated);
    assert forall k | 0 <= k < |t| :: t[k] in t;
  }

  /** The loop goes on from iteration `i` to iteration `i + 1`. */
  lemma PaginatesJoin(a: seq<Event>, g: Event, b: seq<Event>, iterations: int, i: nat, completed: bool)
    requires i + 1 < iterations
    requires forall e | e in a :: !e.Generate? && !e.LoadPlan?
    requires |a| > 0 && Last(a).SaveResults? && Last(a).iteration == i && Marks(a, Saved) == [i]
    requires g.Generate? && g.iteration == i && NextArgs(Last(a).plan) == Returns(g.args)
    requires Paginates(b, iterations, i + 1, completed)
    ensures Paginates(a + [g] + b, iterations, i, completed)
  {
    PaginationJoin(a, g, b, i, |Marks(b, Saved)|, |Marks(b, Generated)|);
  }

  /** The `KeyError`s the runner raises itself, reading a plan's keys. */
  const PlanKeyErrors := {MissingKey("args"), MissingKey("items"), MissingKey("nextPageToken")}

  /** How the outer loop from iteration `i` ends, with calls `t`: it
      completes exactly when every remaining iteration was saved and its
      last call returned; an exception that escapes it was raised by its
      last call, or is a `KeyError` for a plan key the runner reads, as
      long as the step's own exceptions come from its calls (`fromCalls`). */
  ghost predicate Ends(env: Env, fromCalls: bool, t: seq<Event>, iterations: int, i: nat, exit: Outcome<()>) {
    && (exit.Returns? <==> |Marks(t, Saved)| == Max0(iterations - i) && (|t| > 0 ==> env.Raised(Last(t)).None?))
    && (exit.Raises? && fromCalls ==>
          (|t| > 0 && env.Raised(Last(t)) == Some(exit.exc)) || exit.exc in PlanKeyErrors)
  }

  /** The last call after a `generate` call is the later iterations' last
      call, if they made any. */
  lemma LastOfJoin(a: seq<Event>, g: Event, b: seq<Event>)
    ensures Last(a + [g] + b) == if |b| > 0 then Last(b) else g
  {
  }

  /** The outer loop goes on from iteration `i` to `i + 1` after a
      `generate` call that returned. */
  lemma EndsJoin(env: Env, fromCalls: bool, a: seq<Event>, g: Event, b: seq<Event>, iterations: int, i: nat, exit: Outcome<()>)
    requires i + 1 < iterations
    requires forall e | e in a :: !e.Generate? && !e.LoadPlan?
    requires |a| > 0 && Last(a).SaveResults? && Last(a).iteration == i && Marks(a, Saved) == [i]
    requires g.Generate? && g.iteration == i && NextArgs(Last(a).plan) == Returns(g.args)
    requires env.generate(g.iteration, g.args).Returns?
    requires Paginates(b, iterations, i + 1, exit.Returns?)
    requires Ends(env, fromCalls, b, iterations, i + 1, exit)
    ensures Paginates(a + [g] + b, iterations, i, exit.Returns?)
    ensures Ends(env, fromCalls, a + [g] + b, iterations, i, exit)
    ensures |a + [g] + b| > |a| && (a + [g] + b)[..|a|] == a && (a + [g] + b)[|a|] == g
  {
    PaginatesJoin(a, g, b, iterations, i, exit.Returns?);
    assert (a + [g] + b)[..|a|] == a;
    assert env.Raised(g).None?;
    LastOfJoin(a, g, b);
    MarksAppend(a, [g], Saved);
    MarksAppend(a + [g], b, Saved);
    MarksNone([g], Saved);
    assert |Marks(a + [g] + b, Saved)| == |Marks(b, Saved)| + 1;
  }

  /** How iteration `i` ended, with calls `t` and outcome `exit`, as
      `RunIteration` promises: no pagination call and no plan load; a save
      only as the last call, and a returning iteration saved as it ended; an
      exception from postprocess or save raised by that call, one without
      any call a `KeyError` for the plan's keys, and with a step whose
      exceptions come from its calls (`fromCalls`), every exception raised
      by the last call. */
  ghost predicate Ended(env: Env, fromCalls: bool, i: nat, t: seq<Event>, exit: Outcome<Plan>) {
    && (forall e | e in t :: !e.Generate? && !e.LoadPlan?)
    && Marks(t, Saved) == (if |t| > 0 && Last(t).SaveResults? then [i] else [])
    && (exit.Returns? ==> |t| > 0 && Last(t) == SaveResults(i, exit.value) && env.save(i, exit.value).Returns?)
    && (exit.Raises? && |t| > 0 && !Last(t).IsItemCall() ==> env.Raised(Last(t)) == Some(exit.exc))
    && (exit.Raises? && t == [] ==> exit.exc in {MissingKey("args"), MissingKey("items")})
    && (exit.Raises? && fromCalls && |t| > 0 ==> env.Raised(Last(t)) == Some(exit.exc))
  }

  lemma IterationEnded(env: Env, step: (Site, Record) -> Traced<Record>, i: nat, plan: Plan)
    requires WellFormedStep(step)
    ensures var it := RunIteration(env, step, i, plan);
      Ended(env, RaisesFromLastCall(env, step), i, it.trace, it.exit)
  {
    var it := RunIteration(env, step, i, plan);
    assert it.exit.Returns? ==> Last(it.trace) == SaveResults(i, it.exit.value) && env.save(i, it.exit.value).Returns?;
    if plan.args.Some? && plan.items.Some? {
      ItemsAbortFromLastCall(env, step, i, plan.items.value, 0);
    }
  }

  /** The loop ends within iteration `i`, whose exception escapes. */
  lemma EndsOnRaise(env: Env, fromCalls: bool, t: seq<Event>, iterations: int, i: nat, x: Exception)
    requires i < iterations
    requires Ended(env, fromCalls, i, t, Raises(x))
    ensures Paginates(t, iterations, i, false)
    ensures Ends(env, fromCalls, t, iterations, i, Raises(x))
  {
    PaginatesStop(t, iterations, i, false);
    RaiseIsIncomplete(env, t, iterations, i, x);
    if t == [] {
      assert x in PlanKeyErrors;
    }
  }

  lemma RaiseIsIncomplete(env: Env, t: seq<Event>, iterations: int, i: nat, x: Exception)
    requires i < iterations
    requires Marks(t, Saved) == (if |t| > 0 && Last(t).SaveResults? then [i] else [])
    requires |t| > 0 && !Last(t).IsItemCall() ==> env.Raised(Last(t)) == Some(x)
    ensures !(|Marks(t, Saved)| == Max0(iterations - i) && (|t| > 0 ==> env.Raised(Last(t)).None?))
  {
    if |t| > 0 && Last(t).SaveResults? {
      assert env.Raised(Last(t)) == Some(x);
    } else {
      assert |Marks(t, Saved)| < Max0(iterations - i);
    }
  }

  /** The loop completes after its last iteration, whose save returned. */
  lemma EndsAfterLast(env: Env, fromCalls: bool, t: seq<Event>, iterations: int, i: nat, saved: Plan)
    requires i < iterations <= i + 1
    requires Ended(env, fromCalls, i, t, Returns(saved))
    ensures Paginates(t, iterations, i, true)
    ensures Ends(env, fromCalls, t, iterations, i, Returns(()))
  {
    PaginatesStop(t, iterations, i, true);
  }

  /** The loop ends after a saved iteration that is not the last, when the
      next page cannot be asked for. */
  lemma EndsOnNextArgs(env: Env, fromCalls: bool, t: seq<Event>, iterations: int, i: nat, saved: Plan, x: Exception)
    requires i + 1 < iterations
    requires Ended(env, fromCalls, i, t, Returns(saved)) && x in PlanKeyErrors
    ensures Paginates(t, iterations, i, false)
    ensures Ends(env, fromCalls, t, iterations, i, Raises(x))
  {
    PaginatesStop(t, iterations, i, false);
  }

  /** The loop ends when `generate`, called after the save, raises. */
  lemma EndsOnGenerate(env: Env, fromCalls: bool, t: seq<Event>, g: Event, iterations: int, i: nat, x: Exception)
    requires i + 1 < iterations
    requires forall e | e in t :: !e.Generate? && !e.LoadPlan?
    requires |t| > 0 && Last(t).SaveResults? && Last(t).iteration == i && Marks(t, Saved) == [i]
    requires g.Generate? && g.iteration == i && NextArgs(Last(t).plan) == Returns(g.args)
    requires env.generate(g.iteration, g.args) == Raises(x)
    ensures Paginates(t + [g], iterations, i, false)
    ensures Ends(env, fromCalls, t + [g], iterations, i, Raises(x))
    ensures |t + [g]| > |t| && (t + [g])[..|t|] == t && (t + [g])[|t|] == g
  {
    PaginatesJoin(t, g, [], iterations, i, false);
    assert t + [g] + [] == t + [g];
    GenerateRaises(env, fromCalls, t, g, iterations, i, x);
  }

  lemma GenerateRaises(env: Env, fromCalls: bool, t: seq<Event>, g: Event, iterations: int, i: nat, x: Exception)
    requires i + 1 < iterations
    requires Marks(t, Saved) == [i] && g.Generate? && env.generate(g.iteration, g.args) == Raises(x)
    ensures Ends(env, fromCalls, t + [g], iterations, i, Raises(x))
  {
    assert env.Raised(g) == Some(x);
    MarksAppend(t, [g], Saved);
    MarksNone([g], Saved);
  }

  /** The outer loop from iteration `i` on, for `range(iterations)`: run
      the iteration, then go on as `Continue` says. */
  function Iterate(env: Env, step: (Site, Record) -> Traced<Record>, iterations: int, i: nat, plan: Plan): (r: Traced<()>)
    requires WellFormedStep(step)
    decreases iterations - i, 2
    ensures Paginates(r.trace, iterations, i, r.exit.Returns?)
    ensures Ends(env, RaisesFromLastCall(env, step), r.trace, iterations, i, r.exit)
    // iteration `i` runs on the given plan, and its calls come first
    ensures i < iterations ==> RunIteration(env, step, i, plan).trace <= r.trace
  {
    if i >= iterations then Traced([], Returns(()))
    else
      var it := RunIteration(env, step, i, plan);
      IterationEnded(env, step, i, plan);
      Continue(env, step, iterations, i, it.trace, it.exit)
  }

  /** After iteration `i`, whose calls are `t`, ended with `exit`: an
      exception ends the run; after the last iteration the loop is done;
      otherwise `generate` is asked for the next page with the hand-off
      arguments, and the loop goes on with the plan it returns. */
  function Continue(env: Env, step: (Site, Record) -> Traced<Record>, iterations: int, i: nat, t: seq<Event>, exit: Outcome<Plan>): (r: Traced<()>)
    requires WellFormedStep(step)
    requires i < iterations
    requires Ended(env, RaisesFromLastCall(env, step), i, t, exit)
    decreases iterations - i, 1
    // an exception of the iteration ends the loop, with nothing called after it
    ensures exit.Raises? ==> r == Traced(t, Raises(exit.exc))
    ensures Paginates(r.trace, iterations, i, r.exit.Returns?)
    ensures Ends(env, RaisesFromLastCall(env, step), r.trace, iterations, i, r.exit)
    // the iteration's calls come first, unchanged
    ensures |r.trace| >= |t| && r.trace[..|t|] == t
    // after the last iteration's save nothing more is called and the loop completes
    ensures exit.Returns? && i + 1 >= iterations ==> r == Traced(t, Returns(()))
    // a saved plan that cannot give the next page's arguments ends the loop with that `KeyError`
    ensures exit.Returns? && i + 1 < iterations && NextArgs(exit.value).Raises? ==>
      r == Traced(t, Raises(NextArgs(exit.value).exc))
  {
    match exit
    case Raises(x) =>
      EndsOnRaise(env, RaisesFromLastCall(env, step), t, iterations, i, x);
      Traced(t, Raises(x))
    case Returns(saved) =>
      if i + 1 < iterations then
        match NextArgs(saved)
        case Raises(x) =>
          EndsOnNextArgs(env, RaisesFromLastCall(env, step), t, iterations, i, saved, x);
          Traced(t, Raises(x))
        case Returns(args) => Advance(env, step, iterations, i, t, args)
      else
        EndsAfterLast(env, RaisesFromLastCall(env, step), t, iterations, i, saved);
        Traced(t, Returns(()))
  }

  /** After iteration `i`, saved as the last of its calls `t`, with more
      iterations to come: `generate` is asked for the next page with the
      hand-off arguments `args`, and the loop goes on with the plan it
      returns. */
  function Advance(env: Env, step: (Site, Record) -> Traced<Record>, iterations: int, i: nat, t: seq<Event>, args: Record): (r: Traced<()>)
    requires WellFormedStep(step)
    requires i + 1 < iterations
    requires forall e | e in t :: !e.Generate? && !e.LoadPlan?
    requires |t| > 0 && Last(t).SaveResults? && Last(t).iteration == i && Marks(t, Saved) == [i]
    requires NextArgs(Last(t).plan) == Returns(args)
    decreases iterations - i, 0
    ensures Paginates(r.trace, iterations, i, r.exit.Returns?)
    ensures Ends(env, RaisesFromLastCall(env, step), r.trace, iterations, i, r.exit)
    ensures |r.trace| > |t| && r.trace[..|t|] == t && r.trace[|t|] == Generate(i, args)
    // an exception `generate` raises ends the loop right after that call
    ensures env.generate(i, args).Raises? ==>
      r == Traced(t + [Generate(i, args)], Raises(env.generate(i, args).exc))
    // the next iteration runs on the plan `generate` returned
    ensures env.generate(i, args).Returns? ==>
      var rest := Iterate(env, step, iterations, i + 1, env.generate(i, args).value);
      r == Traced(t + [Generate(i, args)] + rest.trace, rest.exit)
  {
    var g := Generate(i, args);
    match env.generate(i, args)
    case Raises(x) =>
      EndsOnGenerate(env, RaisesFromLastCall(env, step), t, g, iterations, i, x);
      Traced(t + [g], Raises(x))
    case Returns(next) =>
      var rest := Iterate(env, step, iterations, i + 1, next);
      EndsJoin(env, RaisesFromLastCall(env, step), t, g, rest.trace, iterations, i, rest.exit);
      Traced(t + [g] + rest.trace, rest.exit)
  }

  /** The calls of a run that got past the fail-fast checks: the plan is
      loaded first and only once, and the outer loop's promises hold for
      the rest. */
  ghost predicate LoadsThenPaginates(t: seq<Event>, iterations: int, completed: bool) {
    && |t| > 0
    && t[0] == LoadPlan
    && (forall e | e in t[1..] :: !e.LoadPlan?)
    // with no iterations, nothing but the load happens
    && (iterations <= 0 ==> |t| == 1)
    // saves: one per iteration, in order, `max(iterations, 0)` of them when the run completes
    && Marks(t, Saved) == Range(0, |Marks(t, Saved)|)
    && |Marks(t, Saved)| <= Max0(iterations)
    && (completed ==> |Marks(t, Saved)| == Max0(iterations))
    // pagination: at most `max(iterations - 1, 0)` calls, so none for a single iteration
    && Marks(t, Generated) == Range(0, |Marks(t, Generated)|)
    && |Marks(t, Generated)| <= Max0(iterations - 1)
    && (completed ==> |Marks(t, Generated)| == Max0(iterations - 1))
    && HandOff(t)
  }

  lemma LoadThenLoop(t: seq<Event>, iterations: int, completed: bool)
    requires Paginates(t, iterations, 0, completed)
    requires iterations <= 0 ==> t == []
    ensures LoadsThenPaginates([LoadPlan] + t, iterations, completed)
  {
  }

  /** Loading the plan first keeps the loop's promises about how it ends. */
  lemma LoadThenEnds(env: Env, t: seq<Event>, iterations: int, exit: Outcome<()>)
    requires env.load.Returns?
    requires Ends(env, true, t, iterations, 0, exit)
    ensures Ends(env, true, [LoadPlan] + t, iterations, 0, exit)
  {
    MarksAppend([LoadPlan], t, Saved);
    MarksNone([LoadPlan], Saved);
    assert Last([LoadPlan] + t) == if |t| > 0 then Last(t) else LoadPlan;
  }

  /** `YouTubeTestRunner.run`: the two fail-fast checks, loading the plan,
      then the outer loop with `ProcessVideo` as the body of the inner
      loop. */
  function Run(env: Env, cfg: Config, caps: Capabilities): (r: Traced<()>)
    // a missing transcriber aborts before anything is called
    ensures !caps.hasTranscriber ==> r == Traced([], Raises(TranscriberMissing))
    // several iterations without the credential abort before the plan is loaded
    ensures caps.hasTranscriber && cfg.iterations > 1 && !caps.googleApi ==>
      r == Traced([], Raises(CredentialMissing))
    // otherwise the plan is loaded, then the iterations run
    ensures caps.hasTranscriber && (cfg.iterations <= 1 || caps.googleApi) ==>
      LoadsThenPaginates(r.trace, cfg.iterations, r.exit.Returns?)
    // a plan that cannot be loaded aborts the run before any other call
    ensures caps.hasTranscriber && (cfg.iterations <= 1 || caps.googleApi) && env.load.Raises? ==>
      r == Traced([LoadPlan], Raises(env.load.exc))
    // the run completes exactly when every iteration was saved and the last call returned;
    // an exception is the last call's, or a `KeyError` for a plan key
    ensures caps.hasTranscriber && (cfg.iterations <= 1 || caps.googleApi) ==>
      Ends(env, true, r.trace, cfg.iterations, 0, r.exit)
  {
    if !caps.hasTranscriber then Traced([], Raises(TranscriberMissing))
    else if cfg.iterations > 1 && !caps.googleApi then Traced([], Raises(CredentialMissing))
    else
      match env.load
      case Raises(x) =>
        assert [LoadPlan][1..] == [];
        MarksNone([LoadPlan], Saved);
        MarksNone([LoadPlan], Generated);
        assert env.Raised(LoadPlan) == Some(x);
        Traced([LoadPlan], Raises(x))
      case Returns(plan) =>
        var rest := Iterate(env, ItemStep(env, cfg), cfg.iterations, 0, plan);
        LoadThenLoop(rest.trace, cfg.iterations, rest.exit.Returns?);
        LoadThenEnds(env, rest.trace, cfg.iterations, rest.exit);
        Traced([LoadPlan] + rest.trace, rest.exit)
  }
}
